=== FILE: README.md ===
# OpenChasm resource layer — a Dafny model

This project models the read-only resource layer of OpenChasm (a reconstruction
of *Chasm: The Rift*) and the object-placement part of level loading, and proves
properties of the model with Dafny.

* **Seek translation** (`Seek`). An `EmbeddedFileBuffer` is either a standalone
  file or a window `(offset, size)` of the shared archive `csm.bin`. Its
  `seekoff`/`seekpos` translate begin-, current- and end-relative requests into
  positions of the underlying file. A seek is a pure function
  `(view, handle, request) -> (result, handle')`.
* **Table of contents** (`Archive`). The magic `'CSid'` (`0x64695343`), a 16-bit
  entry count, then 20-byte records (12-byte length-prefixed name, signed 32-bit
  size, signed 32-bit offset), parsed from a byte sequence. An encoder is the
  parser's partner: every representable table survives a write and a read.
* **Start-up resolution** (`Resolver`). The four probes of `InitModule` (base
  `csm.bin`, user `csm.bin`, base `chasmdat/`, user `chasmdat/`), then the
  table load in packed mode.
* **Opening a resource** (`Resource`). The `EmbeddedFileBuffer` constructor: addon
  override, then lookup of the upper-cased file name in the table (first match
  wins), or the loose directory; a must-exist miss halts.
* **Text helpers** (`Text`). `CalcStringLen` with its Uint16 wrap-around, the
  `#name=` title and the shortening loop of `ScanLevels`, and the console rotation
  of `PutConsMessage` (the console holds 7 lines).
* **Loading bar** (`Loading`). The Uint16 counter of `StartLoading`/`NextLoading`.
* **Object placement** (`Spawn`). The record loop of `LoadLevel` as a fold: player
  starts set `Players[0]`, `HFi` and `NetPlace`; other records spawn monsters
  when the skill bit is set in their mode.

Fatal halts (`DoHalt`) are values of `Fatal.Halt`. The file system is the value
`FileSystem.Disk`: the set of paths that exist and the bytes of those that open.

## Behaviour kept as written

The model follows the code, including these behaviours a reader may not expect.

* Every embedded seek that moves the stream returns the new absolute position in
  the archive, not the logical one. Only the current-relative seek by 0 (tell)
  returns a logical position (`Seek.SeekOff`).
* A current-relative seek by a nonzero amount forwards the logical target
  `cur + off` as a relative seek. It moves by `cur + off` from where the stream
  is, not to `offset + cur + off` (`Seek.CurrentSeekOvershoots`).
* An end-relative seek's window test `off < size` passes every negative offset
  when the size is not negative, so only the archive's start bounds it. Offsets
  at or beyond `-size` are not rejected: the seek can reach position 0 and can
  land before the window (`Seek.EndSeekReachesStart`, `Seek.EndSeekHasNoLowerBound`).
* Stored names are not upper-cased; only the probe is. An entry stored with a
  lower-case letter can never be found (`Resource.LowerCaseEntryIsUnreachable`).
* Reads are not bounded by the window: the buffer overrides only the two seek
  functions. The table is not checked against the archive length.
* The net-place `plx` field is written twice (first `mx`, then `my`), and `ply`
  is never written (`Spawn.NetPlaceFromLastStart`).

## Model

| member | source | states |
|---|---|---|
| Seek.SeekOff | src/chasm/cspbio.cpp:173-206 | every seek keeps the file length; a rejected seek returns -1 and leaves the handle alone; a seek that moves returns the new absolute position; tell in a window is the position minus the offset and does not move |
| Seek.SeekPos | src/chasm/cspbio.cpp:208-211 | a begin seek in a window is accepted iff 0 <= p <= size (with offset + p >= 0) and lands on offset + p; a standalone file accepts every p >= 0 and lands on p |
| Seek.Tell | src/chasm/cspbio.cpp:184-191 | tell is the underlying position minus the window offset, or the position itself for a standalone file |
| Seek.TellAfterSeekPos | src/chasm/cspbio.cpp:180-191 | after an accepted begin seek to p, tell returns p |
| Seek.TellDoesNotMove | src/chasm/cspbio.cpp:184-191 | a current-relative seek by 0 never moves the handle |
| Seek.CurrentSeek | src/chasm/cspbio.cpp:184-199 | a nonzero current seek is accepted iff 0 <= cur + off <= size (and the target is not negative) and moves the handle by cur + off |
| Seek.CurrentSeekOvershoots | src/chasm/cspbio.cpp:193-198 | after an accepted current seek tell is 2 cur + off, so it misses cur + off unless the stream was at the window start |
| Seek.EndSeek | src/chasm/cspbio.cpp:200-205 | an end seek is accepted iff off < 0, off < size and the target is not negative, and lands on offset + size + off; off >= 0 is always rejected |
| Seek.EndSeekHasNoLowerBound | src/chasm/cspbio.cpp:200-203 | a 10-byte window at 100 accepts a seek 50 back from its end and ends 40 bytes before the window |
| Seek.EndSeekReachesStart | src/chasm/cspbio.cpp:200-203 | in a non-empty window an end seek by -size is accepted and reaches logical 0 |
| Seek.StandaloneSeekIsUnchecked | src/chasm/cspbio.cpp:175-178 | a standalone file applies no bound of its own: only a negative target is rejected |
| Archive.PascalName | src/chasm/cspbio.cpp:58 | a name read from the 12-byte field has at most 11 one-byte characters |
| Archive.PascalNameRoundTrip | src/chasm/cspbio.cpp:58 | every name of at most 11 one-byte characters is read back from its field |
| Archive.Signed32 | src/chasm/cspbio.cpp:60-61 | a 4-byte field read as a Sint32 always lies in the Sint32 range |
| Archive.Signed32RoundTrip | src/chasm/cspbio.cpp:60-61 | every Sint32 value is read back from its 4 little-endian bytes |
| Archive.DecodeEntry | src/chasm/cspbio.cpp:56-62 | every 20-byte record decodes to an entry the record format can represent: a name of at most 11 one-byte characters and Sint32 size and offset |
| Archive.EntryRoundTrip | src/chasm/cspbio.cpp:56-62 | every representable entry is read back from its 20-byte record |
| Archive.ReadEntries | src/chasm/cspbio.cpp:347-353 | n records succeed iff 20 n bytes are there; the result has n entries, entry i decoded from record i, in file order |
| Archive.ReadTable | src/chasm/cspbio.cpp:334-353 | a table is returned iff the magic matches and header and records fit; a wrong magic halts with BadHeader; the table has exactly count entries in file order |
| Archive.ReadTableRoundTrip | src/chasm/cspbio.cpp:334-353 | any table of fewer than 65536 representable entries, written with any payload after it, is read back unchanged |
| Archive.MagicSpellsCSid | src/chasm/cspbio.cpp:337 | the magic is the bytes 'C' 'S' 'i' 'd' |
| Resolver.SelectSource | src/chasm/cspbio.cpp:294-323 | succeeds iff one of the four candidates exists, and then picks the first existing one in probe order (archives packed, directories loose); otherwise halts with NoResourceLocation |
| Resolver.SelectSourceIsFirstExisting | src/chasm/cspbio.cpp:294-323 | the probe chain equals the first-existing search over the candidate list |
| Resolver.InitModule | src/chasm/cspbio.cpp:325-356 | no probe found halts; a loose source always succeeds with an empty table; a packed source whose archive does not open halts with CannotOpen, and one that opens gives exactly the table parse's verdict (the table, or its BadHeader/Truncated halt); a success carries the probe result |
| Resource.UpperIsCanonical | src/chasm/cspbio.cpp:125-126 | the upper-cased probe holds no lower-case letter and upper-casing is idempotent |
| Resource.Find | src/chasm/cspbio.cpp:129-152 | returns the first index whose stored name equals the probe, or None when no stored name does |
| Resource.OpenResource | src/chasm/cspbio.cpp:97-170 | a must-exist open never yields a closed stream; an open stream is on a file that opens, with that file's length, and a standalone one starts at 0 |
| Resource.AddonWins | src/chasm/cspbio.cpp:104-121 | with addons on and the addon file existing, the addon file is opened (or the open halts) in either mode |
| Resource.ArchiveHit | src/chasm/cspbio.cpp:123-152 | in packed mode the first entry named like the upper-cased file name gives the window; for a well-formed entry the stream sits at logical 0 |
| Resource.ArchiveMiss | src/chasm/cspbio.cpp:154-157 | in packed mode a miss halts with NotFound when the file must exist, else yields a closed stream |
| Resource.ArchiveHitUnopenable | src/chasm/cspbio.cpp:129-157 | an entry matches but the archive does not open again: `found` stays false, so a must-exist open halts with NotFound and any other open yields a closed stream |
| Resource.LooseOpen | src/chasm/cspbio.cpp:159-168 | in loose mode BaseFile / path is opened; failing that, must-exist halts and otherwise the stream is closed |
| Resource.CaseInsensitiveLookup | src/chasm/cspbio.cpp:125-133 | two paths whose file names agree up to case open the same window |
| Resource.LowerCaseEntryIsUnreachable | src/chasm/cspbio.cpp:125-133 | an entry whose stored name holds a lower-case letter is never the lookup result |
| Text.CalcStringLen | src/chasm/cspbio.cpp:741-751 | the width is the sum of the advances (4 for a space, CharSize otherwise) modulo 65536 |
| Text.TotalWidthAppend | src/chasm/cspbio.cpp:741-751 | the unwrapped width of a concatenation is the sum of the widths |
| Text.SpacesWidth | src/chasm/cspbio.cpp:747 | n spaces are 4 n wide in any font |
| Text.ShortenName | src/chasm/cspbio.cpp:652-664 | a name at most 132 wide is kept; a wider one becomes its longest proper prefix at most 122 wide followed by "..." |
| Text.Trim | src/chasm/cspbio.cpp:650 | the result has no white space at either end and is the input with white space cut off both ends |
| Text.LevelTitle | src/chasm/cspbio.cpp:641-650 | a title exists iff the line starts with "#name="; it is the rest of the line with white space cut from both ends |
| Text.LevelTitleRoundTrip | src/chasm/cspbio.cpp:641-650 | "#name=" followed by a trimmed title yields that title |
| Text.FirstNonEmptyBy | src/chasm/cspbio.cpp:628-639 | the result is the image of some line i that is non-empty while every earlier line maps to ""; None only when every line maps to "" |
| Text.FirstNonBlank | src/chasm/cspbio.cpp:628-639 | the line found is non-empty and trimmed, it is the trim of some line i, and every line before i trims to empty; None only when every line is blank |
| Text.LabelFromLine | src/chasm/cspbio.cpp:641-666 | a line without the prefix is the long name and leaves the short name alone; a title is the long name and gets a short name: the title itself when at most 132 wide, else its longest proper prefix at most 122 wide followed by "..." |
| Text.ScanLevel | src/chasm/cspbio.cpp:613-666 | a missing file gives "." and no short name; all-blank lines halt with ReadError; a line without the prefix is the long name; a title is the long name and gets a short name: the title itself when at most 132 wide, else its longest proper prefix at most 122 wide followed by "..." |
| Text.PutConsMessage | src/chasm/cspbio.cpp:761-771 | the console keeps its length and last line, the message goes just above the last line, the other lines move up by one |
| Text.PutAllKeepsRecent | src/chasm/cspbio.cpp:761-771 | after up to length - 1 messages they sit in order just above the unchanged last line |
| Text.PutAllShifts | src/chasm/cspbio.cpp:761-768 | each message moves the older lines up by one |
| Text.ConsoleShowsRecent | src/chasm/cspbio.cpp:761-771 | on the 7-line console, up to six messages sit oldest first directly above the unchanged bottom line |
| Loading.StartLoading | src/chasm/csact.cpp:49-56 | level 99 leaves the counter alone; any other level sets it to 2 |
| Loading.NextLoading | src/chasm/csact.cpp:66-74 | a zero counter stays 0; otherwise the counter ends at most 150, and from (0, 150] it grows by 4 or stops at 150 |
| Loading.BarWidth | src/chasm/csact.cpp:78 | the bar is never wider than the picture |
| Loading.ReachableIsClosed | src/chasm/csact.cpp:49-74 | 0 or an even value in [2, 150] stays so under both operations |
| Loading.AdvanceFromStart | src/chasm/csact.cpp:66-74 | k steps from a value in [2, 150] reach p + 4 k capped at 150 |
| Loading.AdvanceStaysAtZero | src/chasm/csact.cpp:68-71 | a zero counter stays 0 however many steps follow |
| Loading.LoadLevelProgress | src/chasm/csact.cpp:102-217 | after one StartLoading and seven NextLoading the counter is 30 for any level but 99, and stays 0 for level 99 from 0 |
| Spawn.PlayerFacing | src/chasm/csact.cpp:149 | a player start's facing is in [0, 7] |
| Spawn.PlayerFacingIsMirror | src/chasm/csact.cpp:149 | the facing conversion is an involution on [0, 7] and depends on FI modulo 8 only |
| Spawn.MonsterAngle | src/chasm/csact.cpp:187 | a monster angle is a multiple of 128 in [0, 896], equal to 128 times (FI + 4) mod 8 |
| Spawn.NewMonster | src/chasm/csact.cpp:178-205 | a spawned monster has Fi = ((FI + 4) & 7) * 128 and TgFi == Fi, Target -1, Phase 2, the type's life, the record's position, the type truncated to 8 bits, and DamageMode, MMode, MFlags, WalkCount, FTime, EVs and EvFi zero |
| Spawn.Place | src/chasm/csact.cpp:144-207 | halts iff a player start has mode outside [0, 31]; a spawn writes slot MCount and adds 1, nothing else in the list changes; a mode-0 start sets the player and HFi, which is at most 57344 and so fits its Uint16; the start's NetPlace gets plx = my, pfi = facing << 13, ply kept |
| Spawn.PlaceAll | src/chasm/csact.cpp:142-208 | halts iff some player start has a bad mode; MCount grows by the number of spawning records; no ply changes; slots below the old and from the new MCount are untouched |
| Spawn.SpawnedMonster | src/chasm/csact.cpp:178-205 | the i-th record, if it spawns, fills slot MCount + number of spawns before it with its monster |
| Spawn.PlayerFromLastStart | src/chasm/csact.cpp:156-168 | Players[0] and HFi come from the last mode-0 player start, or are unchanged without one |
| Spawn.NetPlaceFromLastStart | src/chasm/csact.cpp:170-174 | NetPlace[k] comes from the last player start with mode k: plx = its my, pfi = its facing << 13, ply unchanged |
| Spawn.LoadObjects | src/chasm/csact.cpp:131-215 | halts iff a player start has a bad mode; MCount is the number of spawns with monsters on and 0 with monsters off; Players[0] and HFi come from the last mode-0 start (unchanged without one); NetPlace[k] is blank, or plx = my and pfi = facing << 13 of the last mode-k start with ply blank; the i-th spawning record's monster sits in the slot numbered by the spawns before it |

## Left out

- Process termination: `DoHalt`, the SDL message box and `exit` become `Fatal.Halt` values.
- Real file I/O: opening, `is_open`, `IsPathExist` and the byte readers are inputs (`FileSystem.Disk`); integers are read little-endian.
- Archive.PascalName: the Pascal-string reader is not part of this model; a length byte above 11 is taken as 11, and the field is always 12 bytes.
- Archive.ReadTable: the source never checks for a short archive, and what its readers return past the end is unknown; the model stops with `Truncated` there.
- Read bounding at the window end: the source has no such code, so the model has none.
- `DumpBigFileContent`: a disabled debug dump that writes files.
- The asset loaders (`TPic::load`, `LoadRGBTable`, `LoadCommonParts`, `LoadGround`): their formats are outside the resource layer.
- Floating point: the `SinTab` table, `SetPalette`, and the monster `Vx`/`Vy` derived from `SinTab`.
- Drawing in `StartLoading`/`NextLoading`, `InitVideo` and `SDL_Log`.
- `OC::Clamp` of the record count: at most 87 records is a precondition. `FIRST_MONSTER_INDEX` is a parameter, and spawned types must index `MonstersInfo`.
- Spawn.Player: only the six fields of `Players[0]` that a player start writes are modelled. The types of the TMT fields, of `PFI`, and of the fields of `TMonster` and `TPlayerInfo` are not visible (cspbio.cpp:849 and 1287 declare only the arrays `MonstersList` and `Players`), so they are unbounded integers. `HFi` is a `Uint16` (cspbio.cpp:1067); it is an integer here, and `Spawn.Place` states that facing << 13 is at most 57344, so it never wraps.
- The global-variable block, the declarations without bodies, the `ResourceFile` wrapper and `csmenu.h` (a struct layout with no behaviour).
- Seek: the 64-bit `streamoff` range is not modelled; integers are unbounded. The underlying file buffer's seek is taken to behave like `lseek`: a negative target fails and leaves the position alone.
- Text.CalcStringLen: characters must index `CharSize` (codes below 256); a negative signed `char` index is not modelled.
- Text.ScanLevel: the line reader is not part of this model. A file is its sequence of lines, and running out of lines is the read error. The loop over the 64 levels and the file-name formatting are left out. `ChI` halts whenever the stream is not `good()`, and with a getline-style reader that includes reaching end of file. So a first non-blank line that is also the last line, with no final newline, would halt in the source. The model halts only when the lines run out.
- The level file's read checks (`checkIO`) and the other state `LoadLevel` resets before the loop.
- The last attempted name (`LastFName`) appears only as the payload of the halt values.
- Concurrency: the source is single-threaded, and every open gets its own handle on the archive (each stream opens `BaseFile` itself), so there is no shared state to lock.
- Paths: a character of a path or a stored name stands for one byte of it; names are compared and upper-cased byte by byte in the classic locale, and non-ASCII names are not decoded.

=== FILE: archive.dfy ===
/** The table of contents of the packed archive csm.bin, as InitModule and
    FileTableEntry::read parse it (src/chasm/cspbio.cpp).

    Layout, little-endian: a 4-byte magic 'CSid', a 2-byte unsigned entry count, then
    one 20-byte record per entry: a 12-byte length-prefixed name, a signed 32-bit size
    and a signed 32-bit offset. The encoder in this module is the partner of the
    parser: every table it writes is read back unchanged. */
module Archive {
  import opened Fatal
  import opened FileSystem

  /** 0x64695343, the bytes 'C' 'S' 'i' 'd'. */
  const Magic: nat := 0x64695343
  const HeaderSize: nat := 6
  const RecordSize: nat := 20
  const NameFieldSize: nat := 12
  /** The name field is one length byte followed by at most this many characters. */
  const MaxNameLength: nat := 11

  /** One FileTableEntry: the name as stored (not case-normalised), the byte count
      and the absolute offset of the payload inside the archive. */
  datatype Entry = Entry(name: string, size: int, offset: int)

  // ---------------------------------------------------------------- integers

  function Pow256(k: nat): (p: nat)
    ensures p >= 1
  {
    if k == 0 then 1 else 256 * Pow256(k - 1)
  }

  /** Unsigned little-endian value of a byte string. */
  function LittleEndian(bs: seq<Byte>): nat
  {
    if |bs| == 0 then 0 else bs[0] + 256 * LittleEndian(bs[1..])
  }

  /** The k lowest bytes of u, least significant first. */
  function LittleEndianBytes(u: nat, k: nat): (bs: seq<Byte>)
    ensures |bs| == k
  {
    if k == 0 then [] else [u % 256] + LittleEndianBytes(u / 256, k - 1)
  }

  lemma {:induction false} LittleEndianRoundTrip(u: nat, k: nat)
    requires u < Pow256(k)
    ensures LittleEndian(LittleEndianBytes(u, k)) == u
  {
    if k > 0 {
      var bs := LittleEndianBytes(u, k);
      assert bs[1..] == LittleEndianBytes(u / 256, k - 1);
      assert u / 256 < Pow256(k - 1) by {
        DivBound(u, Pow256(k - 1));
      }
      LittleEndianRoundTrip(u / 256, k - 1);
      assert LittleEndian(bs) == u % 256 + 256 * (u / 256);
    }
  }

  lemma DivBound(u: nat, p: nat)
    requires u < 256 * p
    ensures u / 256 < p
  {
  }

  /** k bytes hold less than 256^k. */
  lemma {:induction false} LittleEndianBound(bs: seq<Byte>)
    ensures LittleEndian(bs) < Pow256(|bs|)
  {
    if |bs| > 0 {
      LittleEndianBound(bs[1..]);
    }
  }

  /** Two's-complement reading of a 4-byte field (Sint32). */
  function Signed32(bs: seq<Byte>): (x: int)
    requires |bs| == 4
    ensures IsSint32(x)
  {
    LittleEndianBound(bs);
    PowFacts();
    var u := LittleEndian(bs);
    if u >= 0x8000_0000 then u - 0x1_0000_0000 else u
  }

  predicate IsSint32(x: int) {
    -0x8000_0000 <= x < 0x8000_0000
  }

  function Signed32Bytes(x: int): (bs: seq<Byte>)
    requires IsSint32(x)
    ensures |bs| == 4
  {
    LittleEndianBytes(if x < 0 then x + 0x1_0000_0000 else x, 4)
  }

  lemma Signed32RoundTrip(x: int)
    requires IsSint32(x)
    ensures Signed32(Signed32Bytes(x)) == x
  {
    var u := if x < 0 then x + 0x1_0000_0000 else x;
    PowFacts();
    LittleEndianRoundTrip(u, 4);
  }

  // ---------------------------------------------------------------- names

  function CharOf(b: Byte): char
  {
    b as char
  }

  /** A name the 12-byte field can hold: at most 11 one-byte characters. */
  predicate ValidName(s: string)
  {
    |s| <= MaxNameLength && forall i :: 0 <= i < |s| ==> (s[i] as int) < 256
  }

  /** readPascalString(12): the length byte (at most 11 characters fit) and that
      many characters; the whole 12-byte field is consumed. */
  function PascalName(field: seq<Byte>): (s: string)
    requires |field| == NameFieldSize
    ensures ValidName(s)
  {
    var n := if field[0] <= MaxNameLength then field[0] else MaxNameLength;
    seq(n, i requires 0 <= i < n => CharOf(field[1 + i]))
  }

  /** The characters of a valid name as bytes. */
  function NameBytes(s: string): (bs: seq<Byte>)
    requires ValidName(s)
    ensures |bs| == |s|
    ensures forall i :: 0 <= i < |s| ==> CharOf(bs[i]) == s[i]
  {
    if |s| == 0 then [] else [s[0] as int] + NameBytes(s[1..])
  }

  function PascalNameBytes(s: string): (field: seq<Byte>)
    requires ValidName(s)
    ensures |field| == NameFieldSize
  {
    [|s|] + NameBytes(s) + seq(MaxNameLength - |s|, _ => 0)
  }

  lemma PascalNameRoundTrip(s: string)
    requires ValidName(s)
    ensures PascalName(PascalNameBytes(s)) == s
  {
  }

  // ---------------------------------------------------------------- records

  /** FileTableEntry::read on one 20-byte record. */
  function DecodeEntry(rec: seq<Byte>): (e: Entry)
    requires |rec| == RecordSize
    ensures Representable(e)
  {
    Entry(PascalName(rec[..12]), Signed32(rec[12..16]), Signed32(rec[16..20]))
  }

  /** An entry the on-disk record can represent. */
  predicate Representable(e: Entry)
  {
    ValidName(e.name) && IsSint32(e.size) && IsSint32(e.offset)
  }

  function EncodeEntry(e: Entry): (rec: seq<Byte>)
    requires Representable(e)
    ensures |rec| == RecordSize
  {
    PascalNameBytes(e.name) + Signed32Bytes(e.size) + Signed32Bytes(e.offset)
  }

  lemma EntryRoundTrip(e: Entry)
    requires Representable(e)
    ensures DecodeEntry(EncodeEntry(e)) == e
  {
    var rec := EncodeEntry(e);
    assert rec[..12] == PascalNameBytes(e.name);
    assert rec[12..16] == Signed32Bytes(e.size);
    assert rec[16..20] == Signed32Bytes(e.offset);
    PascalNameRoundTrip(e.name);
    Signed32RoundTrip(e.size);
    Signed32RoundTrip(e.offset);
  }

  /** The record of entry i in a table that starts at the front of b. */
  function Record(b: seq<Byte>, i: nat): seq<Byte>
    requires RecordSize * (i + 1) <= |b|
  {
    b[RecordSize * i .. RecordSize * (i + 1)]
  }

  /** The loop of InitModule: n records read one after the other from the front of
      b. None when b ends before the n-th record does. */
  function ReadEntries(b: seq<Byte>, n: nat): (r: Option<seq<Entry>>)
    ensures r.Some? <==> RecordSize * n <= |b|
    ensures r.Some? ==> |r.value| == n
    ensures r.Some? ==> forall i :: 0 <= i < n ==> r.value[i] == DecodeEntry(Record(b, i))
  {
    if n == 0 then Some([])
    else if |b| < RecordSize then None
    else
      match ReadEntries(b[RecordSize..], n - 1)
      case None => None
      case Some(rest) =>
        RecordShift(b, n);
        Some([DecodeEntry(b[..RecordSize])] + rest)
  }

  /** Dropping the first record renumbers the others. */
  lemma RecordShift(b: seq<Byte>, n: nat)
    requires RecordSize * n <= |b|
    ensures forall i :: 0 < i < n ==> Record(b, i) == Record(b[RecordSize..], i - 1)
  {
  }

  /** The header and table part of InitModule: check the magic, read the count,
      read that many records. A wrong magic halts. The source does not check for a
      short file; the model reports it as Truncated. */
  function ReadTable(b: seq<Byte>, path: Path): (r: Result<seq<Entry>>)
    ensures r.Ok? <==>
      && |b| >= HeaderSize
      && LittleEndian(b[..4]) == Magic
      && HeaderSize + RecordSize * LittleEndian(b[4..6]) <= |b|
    ensures |b| >= 4 && LittleEndian(b[..4]) != Magic ==> r == Halted(BadHeader(path))
    ensures r.Ok? ==>
      && |r.value| == LittleEndian(b[4..6])
      && forall i :: 0 <= i < |r.value| ==> r.value[i] == DecodeEntry(Record(b[HeaderSize..], i))
  {
    if |b| < 4 then Halted(Truncated(path))
    else if LittleEndian(b[..4]) != Magic then Halted(BadHeader(path))
    else if |b| < HeaderSize then Halted(Truncated(path))
    else
      match ReadEntries(b[HeaderSize..], LittleEndian(b[4..6]))
      case None => Halted(Truncated(path))
      case Some(table) => Ok(table)
  }

  // ---------------------------------------------------------------- writing

  function EncodeTable(es: seq<Entry>): (b: seq<Byte>)
    requires forall i :: 0 <= i < |es| ==> Representable(es[i])
    ensures |b| == RecordSize * |es|
  {
    if |es| == 0 then [] else EncodeEntry(es[0]) + EncodeTable(es[1..])
  }

  /** A whole archive: header, table, then the payload bytes. */
  function EncodeArchive(es: seq<Entry>, payload: seq<Byte>): seq<Byte>
    requires |es| < 0x1_0000
    requires forall i :: 0 <= i < |es| ==> Representable(es[i])
  {
    LittleEndianBytes(Magic, 4) + LittleEndianBytes(|es|, 2) + EncodeTable(es) + payload
  }

  lemma {:induction false} ReadEncodedEntries(es: seq<Entry>, rest: seq<Byte>)
    requires forall i :: 0 <= i < |es| ==> Representable(es[i])
    ensures ReadEntries(EncodeTable(es) + rest, |es|) == Some(es)
  {
    if |es| > 0 {
      var b := EncodeTable(es) + rest;
      assert b[..RecordSize] == EncodeEntry(es[0]);
      assert b[RecordSize..] == EncodeTable(es[1..]) + rest;
      EntryRoundTrip(es[0]);
      ReadEncodedEntries(es[1..], rest);
      assert [es[0]] + es[1..] == es;
    }
  }

  /** Every representable table survives being written and read back, whatever
      payload follows it. */
  lemma ReadTableRoundTrip(es: seq<Entry>, payload: seq<Byte>, path: Path)
    requires |es| < 0x1_0000
    requires forall i :: 0 <= i < |es| ==> Representable(es[i])
    ensures ReadTable(EncodeArchive(es, payload), path) == Ok(es)
  {
    var b := EncodeArchive(es, payload);
    EncodedLayout(es, payload);
    ReadEncodedEntries(es, payload);
    assert ReadEntries(b[HeaderSize..], LittleEndian(b[4..6])) == Some(es);
  }

  /** Where the header fields and the table sit in an encoded archive. */
  lemma EncodedLayout(es: seq<Entry>, payload: seq<Byte>)
    requires |es| < 0x1_0000
    requires forall i :: 0 <= i < |es| ==> Representable(es[i])
    ensures var b := EncodeArchive(es, payload);
      && |b| >= HeaderSize
      && LittleEndian(b[..4]) == Magic
      && LittleEndian(b[4..6]) == |es|
      && b[HeaderSize..] == EncodeTable(es) + payload
  {
    EncodedBytes(es, payload);
    HeaderValues(|es|);
  }

  lemma EncodedBytes(es: seq<Entry>, payload: seq<Byte>)
    requires |es| < 0x1_0000
    requires forall i :: 0 <= i < |es| ==> Representable(es[i])
    ensures var b := EncodeArchive(es, payload);
      && b[..4] == LittleEndianBytes(Magic, 4)
      && b[4..6] == LittleEndianBytes(|es|, 2)
      && b[HeaderSize..] == EncodeTable(es) + payload
  {
    var magic := LittleEndianBytes(Magic, 4);
    var count := LittleEndianBytes(|es|, 2);
    var rest := EncodeTable(es) + payload;
    assert EncodeArchive(es, payload) == magic + count + rest;
    HeaderSplit(magic, count, rest);
  }

  lemma HeaderSplit(magic: seq<Byte>, count: seq<Byte>, rest: seq<Byte>)
    requires |magic| == 4 && |count| == 2
    ensures var b := magic + count + rest;
      b[..4] == magic && b[4..6] == count && b[HeaderSize..] == rest
  {
  }

  lemma HeaderValues(n: nat)
    requires n < 0x1_0000
    ensures LittleEndian(LittleEndianBytes(Magic, 4)) == Magic
    ensures LittleEndian(LittleEndianBytes(n, 2)) == n
  {
    PowFacts();
    LittleEndianRoundTrip(Magic, 4);
    LittleEndianRoundTrip(n, 2);
  }

  lemma PowFacts()
    ensures Pow256(2) == 0x1_0000 && Pow256(4) == 0x1_0000_0000
  {
  }

  /** The bytes 'C' 'S' 'i' 'd' are the magic. */
  lemma MagicSpellsCSid()
    ensures LittleEndian([0x43, 0x53, 0x69, 0x64]) == Magic
  {
  }
}

=== FILE: fatal.dfy ===
/** Fatal conditions of the resource layer and of level loading.
    The original program ends the process through DoHalt; here a halt is a value
    that the caller receives, so every fatal path can be stated and reasoned about. */
module Fatal {
  import opened FileSystem

  /** Why the process would have been halted. */
  datatype Halt =
    | NoResourceLocation            // none of the four probe candidates exists
    | CannotOpen(path: Path)        // a file that exists could not be opened
    | BadHeader(path: Path)         // the archive magic does not match
    | Truncated(path: Path)         // the archive ends inside its table of contents
    | NotFound(name: Path, within: Path)  // must-exist lookup missed in the archive
    | ReadError(path: Path)         // a checked read (ChI) found the stream failed
    | WrongMonsterMode(mode: int)   // player start with a Mode outside [0, 31]

  /** Either a value or the halt that replaced it. */
  datatype Result<+T> = Ok(value: T) | Halted(halt: Halt) {

    predicate IsFailure() {
      Halted?
    }

    function PropagateFailure<U>(): Result<U>
      requires Halted?
    {
      Halted(halt)
    }

    function Extract(): T
      requires Ok?
    {
      value
    }
  }

  datatype Option<+T> = None | Some(value: T)
}

=== FILE: filesystem.dfy ===
/** The file-system facts the resource layer consults, supplied as values:
    which paths exist (IsPathExist) and which files can be opened, with their bytes. */
module FileSystem {

  /** One byte of a file. */
  type Byte = b: int | 0 <= b < 256

  /** A path as its sequence of components; operator/ of boost::filesystem appends. */
  type Path = seq<string>

  function Join(a: Path, b: Path): Path
  {
    a + b
  }

  /** path.filename(): the last component, empty for an empty path. */
  function Filename(p: Path): string
  {
    if |p| == 0 then "" else p[|p| - 1]
  }

  /** existing: every path IsPathExist reports; contents: every file that opens,
      with its bytes. A path can exist and still fail to open. */
  datatype Disk = Disk(existing: set<Path>, contents: map<Path, seq<Byte>>)
}

=== FILE: loading.dfy ===
/** The loading bar of src/chasm/csact.cpp: StartLoading and NextLoading drive
    the Uint16 counter LoadPos (the drawing calls are not modelled). */
module Loading {

  type Uint16 = x: int | 0 <= x < 0x1_0000

  /** LevelN for which StartLoading shows no bar. */
  const NoBarLevel: int := 99
  const StartPos: Uint16 := 2
  const Step: nat := 4
  const FullPos: Uint16 := 150

  /** StartLoading: level 99 leaves the counter alone, any other level restarts it. */
  function StartLoading(levelN: int, loadPos: Uint16): (p: Uint16)
    ensures levelN == NoBarLevel ==> p == loadPos
    ensures levelN != NoBarLevel ==> p == StartPos
  {
    if levelN == NoBarLevel then loadPos else StartPos
  }

  /** NextLoading: nothing while the counter is 0; otherwise add 4 in Uint16
      arithmetic and clamp to 150. */
  function NextLoading(loadPos: Uint16): (p: Uint16)
    ensures loadPos == 0 ==> p == 0
    ensures loadPos != 0 ==> p <= FullPos
    ensures 0 < loadPos <= FullPos ==> loadPos <= p <= loadPos + Step && (p == FullPos || p == loadPos + Step)
  {
    if loadPos == 0 then 0
    else
      var bumped := (loadPos + Step) % 0x1_0000;
      if bumped < FullPos then bumped else FullPos
  }

  /** The width of the bar drawn for a counter value. */
  function BarWidth(loadPos: Uint16, width: nat): (w: nat)
    requires loadPos <= FullPos
    ensures w <= width
  {
    loadPos * width / FullPos
  }

  /** The values the counter can hold once the program uses only these two
      operations from its initial 0. */
  predicate Reachable(p: Uint16)
  {
    p == 0 || (StartPos <= p <= FullPos && p % 2 == 0)
  }

  lemma ReachableIsClosed(levelN: int, p: Uint16)
    requires Reachable(p)
    ensures Reachable(StartLoading(levelN, p))
    ensures Reachable(NextLoading(p))
  {
  }

  /** k calls of NextLoading. */
  function Advance(p: Uint16, k: nat): Uint16
    decreases k
  {
    if k == 0 then p else Advance(NextLoading(p), k - 1)
  }

  /** After a restart, k steps reach 2 + 4k, capped at 150. */
  lemma {:induction false} AdvanceFromStart(p: Uint16, k: nat)
    requires StartPos <= p <= FullPos
    ensures Advance(p, k) == if p + Step * k < FullPos then p + Step * k else FullPos
    decreases k
  {
    if k > 0 {
      AdvanceFromStart(NextLoading(p), k - 1);
    }
  }

  /** LoadLevel calls StartLoading once and NextLoading seven times: for any level
      but 99 the bar ends at 30; for level 99 a counter at 0 stays at 0. */
  lemma LoadLevelProgress(levelN: int, loadPos: Uint16)
    ensures levelN != NoBarLevel ==> Advance(StartLoading(levelN, loadPos), 7) == 30
    ensures levelN == NoBarLevel && loadPos == 0 ==> Advance(StartLoading(levelN, loadPos), 7) == 0
  {
    if levelN != NoBarLevel {
      AdvanceFromStart(StartPos, 7);
    } else if loadPos == 0 {
      AdvanceStaysAtZero(7);
    }
  }

  lemma {:induction false} AdvanceStaysAtZero(k: nat)
    ensures Advance(0, k) == 0
  {
    if k > 0 {
      AdvanceStaysAtZero(k - 1);
    }
  }
}

=== FILE: resolver.dfy ===
/** Start-up resolution in InitModule (src/chasm/cspbio.cpp): choose between the
    packed archive csm.bin and the loose directory chasmdat/, then, for the
    archive, load its table of contents once. */
module Resolver {
  import opened Fatal
  import opened FileSystem
  import Archive

  /** s_isInternal: resources come from the packed archive (true) or from a
      loose directory tree (false). */
  datatype Mode = Packed | Loose

  /** The chosen mode and BaseFile, the archive file or the directory. */
  datatype Source = Source(mode: Mode, baseFile: Path)

  /** GetBasePath and GetUserPath applied to "csm.bin" and "chasmdat/". */
  datatype Locations = Locations(baseArchive: Path, userArchive: Path, baseDir: Path, userDir: Path)

  /** Everything later opens depend on: the source and, in packed mode, the table. */
  datatype Resources = Resources(source: Source, table: seq<Archive.Entry>)

  /** The four candidates in the order they are probed. */
  function Candidates(loc: Locations): seq<Source>
  {
    [ Source(Packed, loc.baseArchive), Source(Packed, loc.userArchive),
      Source(Loose, loc.baseDir), Source(Loose, loc.userDir) ]
  }

  /** Reference definition: the first candidate whose path exists. */
  function FirstExisting(cs: seq<Source>, existing: set<Path>): (r: Option<Source>)
    ensures r.Some? ==> r.value.baseFile in existing
  {
    if |cs| == 0 then None
    else if cs[0].baseFile in existing then Some(cs[0])
    else FirstExisting(cs[1..], existing)
  }

  /** The probe chain of InitModule: base archive, user archive (both packed), base
      directory, user directory (both loose); halts when none exists. */
  function SelectSource(loc: Locations, existing: set<Path>): (r: Result<Source>)
    ensures r.Ok? <==> exists i :: 0 <= i < 4 && Candidates(loc)[i].baseFile in existing
    ensures r.Halted? ==> r.halt == NoResourceLocation
    ensures r.Ok? ==>
      exists i :: && 0 <= i < 4
                  && r.value == Candidates(loc)[i]
                  && r.value.baseFile in existing
                  && forall j :: 0 <= j < i ==> Candidates(loc)[j].baseFile !in existing
  {
    var cs := Candidates(loc);
    if loc.baseArchive in existing then
      assert cs[0].baseFile in existing;
      Ok(Source(Packed, loc.baseArchive))
    else if loc.userArchive in existing then
      assert cs[1].baseFile in existing;
      Ok(Source(Packed, loc.userArchive))
    else if loc.baseDir in existing then
      assert cs[2].baseFile in existing;
      Ok(Source(Loose, loc.baseDir))
    else if loc.userDir in existing then
      assert cs[3].baseFile in existing;
      Ok(Source(Loose, loc.userDir))
    else
      Halted(NoResourceLocation)
  }

  /** The probe chain agrees with the reference definition: first existing wins. */
  lemma SelectSourceIsFirstExisting(loc: Locations, existing: set<Path>)
    ensures match FirstExisting(Candidates(loc), existing)
      case None => SelectSource(loc, existing) == Halted(NoResourceLocation)
      case Some(s) => SelectSource(loc, existing) == Ok(s)
  {
    var cs := Candidates(loc);
    assert cs[1..] == [cs[1], cs[2], cs[3]];
    assert cs[1..][1..] == [cs[2], cs[3]];
    assert cs[1..][1..][1..] == [cs[3]];
    assert cs[1..][1..][1..][1..] == [];
    if loc.baseArchive in existing {
      assert FirstExisting(cs, existing) == Some(cs[0]);
    } else if loc.userArchive in existing {
      assert FirstExisting(cs[1..], existing) == Some(cs[1]);
    } else if loc.baseDir in existing {
      assert FirstExisting(cs, existing) == FirstExisting(cs[1..], existing);
      assert FirstExisting(cs[1..][1..], existing) == Some(cs[2]);
    } else if loc.userDir in existing {
      assert FirstExisting(cs, existing) == FirstExisting(cs[1..], existing);
      assert FirstExisting(cs[1..], existing) == FirstExisting(cs[1..][1..], existing);
      assert FirstExisting(cs[1..][1..][1..], existing) == Some(cs[3]);
    } else {
      assert FirstExisting(cs, existing) == FirstExisting(cs[1..], existing);
      assert FirstExisting(cs[1..], existing) == FirstExisting(cs[1..][1..], existing);
      assert FirstExisting(cs[1..][1..], existing) == FirstExisting(cs[1..][1..][1..], existing);
      assert FirstExisting(cs[1..][1..][1..][1..], existing) == None;
    }
  }

  /** InitModule without the video set-up and the disabled dump: select the source;
      in packed mode the archive must open and its header must parse. */
  function InitModule(loc: Locations, disk: Disk): (r: Result<Resources>)
    ensures r.Ok? ==> SelectSource(loc, disk.existing) == Ok(r.value.source)
    ensures r.Ok? && r.value.source.mode == Loose ==> r.value.table == []
    ensures r.Ok? && r.value.source.mode == Packed ==>
      var f := r.value.source.baseFile;
      f in disk.contents && Archive.ReadTable(disk.contents[f], f) == Ok(r.value.table)
    ensures SelectSource(loc, disk.existing).Halted? ==> r == Halted(NoResourceLocation)
    ensures var s := SelectSource(loc, disk.existing);
      s.Ok? && s.value.mode == Packed && s.value.baseFile !in disk.contents ==>
        r == Halted(CannotOpen(s.value.baseFile))
    ensures var s := SelectSource(loc, disk.existing);
      s.Ok? && s.value.mode == Loose ==> r == Ok(Resources(s.value, []))
    ensures var s := SelectSource(loc, disk.existing);
      s.Ok? && s.value.mode == Packed && s.value.baseFile in disk.contents ==>
        var t := Archive.ReadTable(disk.contents[s.value.baseFile], s.value.baseFile);
        r == (if t.Ok? then Ok(Resources(s.value, t.value)) else Halted(t.halt))
  {
    var source :- SelectSource(loc, disk.existing);
    if source.mode == Loose then
      Ok(Resources(source, []))
    else if source.baseFile !in disk.contents then
      Halted(CannotOpen(source.baseFile))
    else
      var table :- Archive.ReadTable(disk.contents[source.baseFile], source.baseFile);
      Ok(Resources(source, table))
  }
}

=== FILE: resource.dfy ===
/** Opening one resource by name: the EmbeddedFileBuffer constructor
    (src/chasm/cspbio.cpp). The addon directory is tried first; then the archive
    table (packed mode) or the loose directory (loose mode). */
module Resource {
  import opened Fatal
  import opened FileSystem
  import opened Seek
  import Archive
  import opened Resolver

  /** UserMaps and AddonPath. */
  datatype Settings = Settings(userMaps: bool, addonPath: Path)

  /** ResourceFile after construction: not open, or open on a file through a view. */
  datatype Stream = Closed | Open(file: Path, view: View, handle: Handle)

  /** boost::algorithm::to_upper on one character: ASCII a-z only. */
  function UpperChar(c: char): char
  {
    if 'a' <= c <= 'z' then (c as int - 32) as char else c
  }

  predicate IsLower(c: char)
  {
    'a' <= c <= 'z'
  }

  function Upper(s: string): (u: string)
    ensures |u| == |s|
    ensures forall i :: 0 <= i < |s| ==> u[i] == UpperChar(s[i])
  {
    seq(|s|, i requires 0 <= i < |s| => UpperChar(s[i]))
  }

  /** Upper-casing leaves no lower-case letter and changes nothing twice. */
  lemma UpperIsCanonical(s: string)
    ensures forall i :: 0 <= i < |Upper(s)| ==> !IsLower(Upper(s)[i])
    ensures Upper(Upper(s)) == Upper(s)
  {
  }

  /** The scan over s_fileTable: the index of the first entry whose stored name is
      exactly name, or None. */
  function Find(table: seq<Archive.Entry>, name: string): (r: Option<nat>)
    ensures r.Some? ==> r.value < |table| && table[r.value].name == name
    ensures r.Some? ==> forall j :: 0 <= j < r.value ==> table[j].name != name
    ensures r.None? ==> forall j :: 0 <= j < |table| ==> table[j].name != name
  {
    if |table| == 0 then None
    else if table[0].name == name then Some(0)
    else
      match Find(table[1..], name)
      case None => None
      case Some(i) => Some(i + 1)
  }

  /** A freshly opened file: position 0, its whole length. */
  function Fresh(disk: Disk, f: Path): Handle
    requires f in disk.contents
  {
    Handle(0, |disk.contents[f]|)
  }

  /** True when the addon directory holds an existing file for path. */
  predicate AddonApplies(settings: Settings, disk: Disk, path: Path)
  {
    settings.userMaps && Join(settings.addonPath, path) in disk.existing
  }

  /** The EmbeddedFileBuffer constructor. */
  function OpenResource(res: Resources, settings: Settings, disk: Disk, path: Path, mustExist: bool)
    : (r: Result<Stream>)
    ensures mustExist ==> r != Ok(Closed)
    ensures r.Ok? && r.value.Open? ==> r.value.file in disk.contents
    ensures r.Ok? && r.value.Open? && r.value.view.Standalone? ==> r.value.handle.pos == 0
    ensures r.Ok? && r.value.Open? ==> r.value.handle.length == |disk.contents[r.value.file]|
  {
    if AddonApplies(settings, disk, path) then
      var probe := Join(settings.addonPath, path);
      if probe in disk.contents then Ok(Open(probe, Standalone, Fresh(disk, probe)))
      else Halted(CannotOpen(probe))
    else if res.source.mode == Packed then
      var base := res.source.baseFile;
      match Find(res.table, Upper(Filename(path)))
      case Some(i) =>
        var e := res.table[i];
        if base in disk.contents then
          var window := Window(e.offset, e.size);
          Ok(Open(base, window, SeekPos(window, Fresh(disk, base), 0).handle))
        else if mustExist then Halted(NotFound(path, base))
        else Ok(Closed)
      case None =>
        if mustExist then Halted(NotFound(path, base)) else Ok(Closed)
    else
      var probe := Join(res.source.baseFile, path);
      if probe in disk.contents then Ok(Open(probe, Standalone, Fresh(disk, probe)))
      else if mustExist then Halted(CannotOpen(probe))
      else Ok(Closed)
  }

  /** An existing addon file wins over the archive and the loose directory, in
      either mode and whatever the table holds. */
  lemma AddonWins(res: Resources, settings: Settings, disk: Disk, path: Path, mustExist: bool)
    requires settings.userMaps
    requires Join(settings.addonPath, path) in disk.existing
    ensures var f := Join(settings.addonPath, path);
      OpenResource(res, settings, disk, path, mustExist) ==
        (if f in disk.contents then Ok(Open(f, Standalone, Handle(0, |disk.contents[f]|)))
         else Halted(CannotOpen(f)))
  {
  }

  /** Packed mode, no addon override, an entry matches the upper-cased file name:
      the first matching entry gives the window, and a well-formed entry leaves the
      stream at logical position 0. */
  lemma ArchiveHit(res: Resources, settings: Settings, disk: Disk, path: Path, mustExist: bool, i: nat)
    requires !AddonApplies(settings, disk, path)
    requires res.source.mode == Packed && res.source.baseFile in disk.contents
    requires i < |res.table| && res.table[i].name == Upper(Filename(path))
    requires forall j :: 0 <= j < i ==> res.table[j].name != Upper(Filename(path))
    ensures var r := OpenResource(res, settings, disk, path, mustExist);
      && r.Ok? && r.value.Open?
      && r.value.file == res.source.baseFile
      && r.value.view == Window(res.table[i].offset, res.table[i].size)
    ensures var r := OpenResource(res, settings, disk, path, mustExist);
      res.table[i].offset >= 0 && res.table[i].size >= 0 ==>
        && r.value.handle.pos == res.table[i].offset
        && Tell(r.value.view, r.value.handle) == 0
  {
  }

  /** Packed mode, no addon override, no entry matches: a must-exist open halts
      naming the path and the archive; any other open yields a closed stream. */
  lemma ArchiveMiss(res: Resources, settings: Settings, disk: Disk, path: Path, mustExist: bool)
    requires !AddonApplies(settings, disk, path)
    requires res.source.mode == Packed
    requires forall j :: 0 <= j < |res.table| ==> res.table[j].name != Upper(Filename(path))
    ensures OpenResource(res, settings, disk, path, mustExist) ==
      if mustExist then Halted(NotFound(path, res.source.baseFile)) else Ok(Closed)
  {
  }

  /** Packed mode, no addon override, an entry matches but the archive itself
      does not open again: the file counts as not found. */
  lemma ArchiveHitUnopenable(res: Resources, settings: Settings, disk: Disk, path: Path, mustExist: bool)
    requires !AddonApplies(settings, disk, path)
    requires res.source.mode == Packed && res.source.baseFile !in disk.contents
    requires Find(res.table, Upper(Filename(path))).Some?
    ensures OpenResource(res, settings, disk, path, mustExist) ==
      if mustExist then Halted(NotFound(path, res.source.baseFile)) else Ok(Closed)
  {
  }

  /** Loose mode, no addon override: the file BaseFile / path is opened. */
  lemma LooseOpen(res: Resources, settings: Settings, disk: Disk, path: Path, mustExist: bool)
    requires !AddonApplies(settings, disk, path)
    requires res.source.mode == Loose
    ensures var f := Join(res.source.baseFile, path);
      OpenResource(res, settings, disk, path, mustExist) ==
        if f in disk.contents then Ok(Open(f, Standalone, Handle(0, |disk.contents[f]|)))
        else if mustExist then Halted(CannotOpen(f))
        else Ok(Closed)
  {
  }

  /** In packed mode without addons the archive lookup ignores case: two paths
      whose file names agree up to case open the same window. */
  lemma CaseInsensitiveLookup(res: Resources, settings: Settings, disk: Disk, p: Path, q: Path, mustExist: bool)
    requires !settings.userMaps
    requires res.source.mode == Packed
    requires Upper(Filename(p)) == Upper(Filename(q))
    requires OpenResource(res, settings, disk, p, mustExist).Ok?
    requires OpenResource(res, settings, disk, p, mustExist).value.Open?
    ensures OpenResource(res, settings, disk, q, mustExist) == OpenResource(res, settings, disk, p, mustExist)
  {
  }

  /** Stored names are compared as read: an entry whose stored name holds a
      lower-case letter is never found, whatever path is asked for. */
  lemma LowerCaseEntryIsUnreachable(table: seq<Archive.Entry>, i: nat, path: Path)
    requires i < |table|
    requires exists k :: 0 <= k < |table[i].name| && IsLower(table[i].name[k])
    ensures Find(table, Upper(Filename(path))) != Some(i)
  {
    var k :| 0 <= k < |table[i].name| && IsLower(table[i].name[k]);
    UpperIsCanonical(Filename(path));
  }
}

=== FILE: seek.dfy ===
/** Seek translation of EmbeddedFileBuffer (src/chasm/cspbio.cpp).

    A resource stream is either a standalone file, whose seeks go straight to the
    underlying file buffer, or a window (offset, size) of the shared archive file,
    whose seeks are translated into positions of the archive. The stream keeps no
    position of its own: the position lives in the underlying handle. */
module Seek {

  /** std::ios::beg, std::ios::cur and std::ios::end. */
  datatype Origin = Beg | Cur | End

  /** The underlying file: its absolute read position and its length in bytes. */
  datatype Handle = Handle(pos: nat, length: nat)

  /** A standalone file (m_isEmbedded false) or a window of the archive. */
  datatype View = Standalone | Window(offset: int, size: int)

  /** What a seek returns, and the underlying handle afterwards. */
  datatype Moved = Moved(result: int, handle: Handle)

  /** pos_type(off_type(-1)), the failure value of a seek. */
  const InvalidPos: int := -1

  /** The absolute position an origin refers to in the underlying file. */
  function Anchor(h: Handle, way: Origin): int
  {
    match way
    case Beg => 0
    case Cur => h.pos
    case End => h.length
  }

  /** The underlying file buffer's own seek, taken to behave like lseek: a target
      before the start of the file fails and leaves the position alone; any other
      target (also one past the end) becomes the new position and is returned. */
  function BaseSeek(h: Handle, off: int, way: Origin): Moved
  {
    var target := Anchor(h, way) + off;
    if target < 0 then Moved(InvalidPos, h) else Moved(target, h.(pos := target))
  }

  /** EmbeddedFileBuffer::seekoff. Every seek that moves the handle returns the new
      ABSOLUTE position of the underlying file; a failed seek leaves it unchanged. */
  function SeekOff(v: View, h: Handle, off: int, way: Origin): (m: Moved)
    ensures m.handle.length == h.length
    ensures m.result == InvalidPos ==> m.handle == h
    ensures m.handle != h ==> m.result == m.handle.pos
    ensures v.Window? && way == Cur && off == 0 ==> m.handle == h && m.result == h.pos - v.offset
  {
    match v
    case Standalone => BaseSeek(h, off, way)
    case Window(offset, size) =>
      if way == Beg && 0 <= off <= size then
        BaseSeek(h, offset + off, Beg)
      else if way == Cur then
        var curPos := BaseSeek(h, 0, Cur).result - offset;
        if off == 0 then
          Moved(curPos, h)
        else
          var newPos := curPos + off;
          // the translated position is passed on relative to the CURRENT origin
          if 0 <= newPos <= size then BaseSeek(h, newPos, Cur) else Moved(InvalidPos, h)
      else if way == End && off < 0 && off < size then
        BaseSeek(h, offset + size + off, Beg)
      else
        Moved(InvalidPos, h)
  }

  /** EmbeddedFileBuffer::seekpos: an absolute seek. In a window it is accepted
      exactly when 0 <= p <= size (and the archive position is not negative) and
      then lands on offset + p; a standalone file accepts any p >= 0. */
  function SeekPos(v: View, h: Handle, p: int): (m: Moved)
    ensures v.Window? ==>
      (m.result != InvalidPos <==> 0 <= p <= v.size && v.offset + p >= 0)
    ensures v.Window? && m.result != InvalidPos ==>
      m.result == v.offset + p && m.handle == h.(pos := v.offset + p)
    ensures v.Standalone? ==>
      (m.result != InvalidPos <==> p >= 0) &&
      (p >= 0 ==> m.result == p && m.handle == h.(pos := p))
    ensures m.result == InvalidPos ==> m.handle == h
  {
    SeekOff(v, h, p, Beg)
  }

  /** tellg: a current-relative seek by 0. */
  function Tell(v: View, h: Handle): (t: int)
    ensures v.Window? ==> t == h.pos - v.offset
    ensures v.Standalone? ==> t == h.pos
  {
    SeekOff(v, h, 0, Cur).result
  }

  /** A begin-relative seek into a window, followed by tell, gives back the
      requested logical position. */
  lemma TellAfterSeekPos(v: View, h: Handle, p: int)
    requires v.Window? && 0 <= p <= v.size && v.offset + p >= 0
    ensures SeekPos(v, h, p).result != InvalidPos
    ensures Tell(v, SeekPos(v, h, p).handle) == p
  {
  }

  /** A current-relative seek by 0 is a pure query: it never moves the handle. */
  lemma TellDoesNotMove(v: View, h: Handle)
    ensures SeekOff(v, h, 0, Cur).handle == h
    ensures SeekOff(v, h, 0, Cur).result == Tell(v, h)
  {
  }

  /** A current-relative seek by a nonzero amount in a window: it is accepted when
      the logical target cur + off lies in [0, size], and then moves the underlying
      position by cur + off from where it is, not to offset + cur + off. */
  lemma CurrentSeek(v: View, h: Handle, off: int)
    requires v.Window? && off != 0
    ensures var cur := h.pos - v.offset;
      var m := SeekOff(v, h, off, Cur);
      && (m.result != InvalidPos <==> 0 <= cur + off <= v.size && h.pos + cur + off >= 0)
      && (m.result != InvalidPos ==> m.handle.pos == h.pos + (cur + off))
  {
  }

  /** Because of the relative forwarding, a current-relative seek from anywhere but
      the window start does not land on the requested logical position. */
  lemma CurrentSeekOvershoots(v: View, h: Handle, off: int)
    requires v.Window? && off != 0
    requires SeekOff(v, h, off, Cur).result != InvalidPos
    ensures var cur := h.pos - v.offset;
      Tell(v, SeekOff(v, h, off, Cur).handle) == 2 * cur + off
    ensures h.pos != v.offset ==>
      Tell(v, SeekOff(v, h, off, Cur).handle) != Tell(v, h) + off
  {
  }

  /** An end-relative seek in a window is accepted exactly for a negative offset
      (that is also below size) whose archive position is not negative; it lands on
      offset + size + off. An offset of 0 or more is always rejected. */
  lemma EndSeek(v: View, h: Handle, off: int)
    requires v.Window?
    ensures var m := SeekOff(v, h, off, End);
      && (m.result != InvalidPos <==> off < 0 && off < v.size && v.offset + v.size + off >= 0)
      && (m.result != InvalidPos ==> m.handle.pos == v.offset + v.size + off)
      && (off >= 0 ==> m.result == InvalidPos && m.handle == h)
  {
  }

  /** The end-relative check has no lower bound: a window of 10 bytes at offset 100
      accepts a seek 50 bytes back from its end and leaves the stream 40 bytes
      before the window start. */
  lemma EndSeekHasNoLowerBound()
    ensures var v := Window(100, 10);
      var m := SeekOff(v, Handle(0, 1000), -50, End);
      m.result == 60 && Tell(v, m.handle) == -40
  {
  }

  /** In a non-empty window, going back size bytes from the end is accepted and
      reaches logical position 0. */
  lemma EndSeekReachesStart(v: View, h: Handle)
    requires v.Window? && v.size > 0 && v.offset >= 0
    ensures SeekOff(v, h, -v.size, End).result != InvalidPos
    ensures Tell(v, SeekOff(v, h, -v.size, End).handle) == 0
  {
  }

  /** A standalone file forwards every request with no bound of its own: the target
      is the origin's anchor plus off, rejected only when it is negative. */
  lemma StandaloneSeekIsUnchecked(h: Handle, off: int, way: Origin)
    ensures var m := SeekOff(Standalone, h, off, way);
      && (m.result != InvalidPos <==> Anchor(h, way) + off >= 0)
      && (m.result != InvalidPos ==> m.result == Anchor(h, way) + off && m.handle.pos == m.result)
  {
  }
}

=== FILE: spawn.dfy ===
/** The object-placement loop of LoadLevel (src/chasm/csact.cpp), as a fold over
    the level's TMT records: player starts set the player and the network start
    places, other records become monsters when the current skill's bit is set in
    their Mode. */
module Spawn {
  import opened Fatal

  /** MType of a player start record. */
  const PlayerStart: int := 100
  /** The record count is clamped to at most 87. */
  const MaxRecords: nat := 87
  /** NetPlace has 32 slots, MonstersList 90. */
  const NetSlots: nat := 32
  const MonsterSlots: nat := 90
  const MaxMode: int := 31
  /** A facing in eighths of a turn, shifted left by 13, is a player angle. */
  const PlayerAngleUnit: int := 8192
  /** A facing in eighths of a turn, times 128, is a monster angle. */
  const MonsterAngleUnit: int := 128

  /** TMT: position, type, facing (in eighths of a turn) and mode bits. */
  datatype Record = Record(mx: int, my: int, mType: int, fi: int, mode: int)

  /** The fields of Players[0] that a player start writes. */
  datatype Player = Player(hx: int, hy: int, pFlags: int, invTime: int, refTime: int, godTime: int)

  /** NetPlace element: a network start position and angle. */
  datatype NetPlace = NetPlace(plx: int, ply: int, pfi: int)

  /** The MonstersInfo fields a spawn reads. */
  datatype MonsterInfo = MonsterInfo(speed: int, life: int)

  /** The TMonster fields a spawn writes (Vx and Vy are not modelled). */
  datatype Monster = Monster(
    mx: int, my: int, mType: int, fi: int, tgFi: int, damageMode: int,
    target: int, phase: int, mMode: int, mFlags: int, lifeMeter: int,
    walkCount: int, fTime: int, eVs: int, evFi: int)

  /** The globals the loop reads and writes: Players[0], HFi, NetPlace,
      MonstersList and MCount. */
  datatype World = World(player: Player, hfi: int, netPlaces: seq<NetPlace>, monsters: seq<Monster>, mCount: nat)

  /** Skill, MonstersInfo and FIRST_MONSTER_INDEX. */
  datatype Rules = Rules(skill: nat, info: seq<MonsterInfo>, firstMonster: int)

  predicate WellFormed(w: World)
  {
    |w.netPlaces| == NetSlots && |w.monsters| == MonsterSlots
  }

  function Pow2(k: nat): (p: nat)
    ensures p >= 1
  {
    if k == 0 then 1 else 2 * Pow2(k - 1)
  }

  /** (1 << k) & x is nonzero: bit k of x in two's complement. */
  predicate BitSet(x: int, k: nat)
  {
    (x / Pow2(k)) % 2 == 1
  }

  /** A player start's facing: 7 - ((FI + 5) & 7). */
  function PlayerFacing(fi: int): (f: int)
    ensures 0 <= f <= 7
  {
    7 - (fi + 5) % 8
  }

  /** The conversion is a mirror image of the eight directions: applied twice it
      gives the direction back, and it depends only on FI modulo 8. */
  lemma PlayerFacingIsMirror(fi: int)
    ensures 0 <= fi <= 7 ==> PlayerFacing(PlayerFacing(fi)) == fi
    ensures PlayerFacing(fi + 8) == PlayerFacing(fi)
  {
  }

  /** A monster's angle: ((FI + 4) & 7) * 128, one of 0, 128, ..., 896. */
  function MonsterAngle(fi: int): (a: int)
    ensures 0 <= a <= 7 * MonsterAngleUnit && a % MonsterAngleUnit == 0
    ensures a / MonsterAngleUnit == (fi + 4) % 8
  {
    (fi + 4) % 8 * MonsterAngleUnit
  }

  predicate IsPlayerStart(rec: Record)
  {
    rec.mType == PlayerStart
  }

  /** A player start whose Mode is not a NetPlace index halts the load. */
  predicate BadStart(rec: Record)
  {
    IsPlayerStart(rec) && !(0 <= rec.mode <= MaxMode)
  }

  predicate Spawns(rec: Record, rules: Rules)
  {
    !IsPlayerStart(rec) && BitSet(rec.mode, rules.skill)
  }

  /** A spawned record's MType selects an entry of MonstersInfo. */
  predicate InfoIndexed(rec: Record, rules: Rules)
  {
    Spawns(rec, rules) ==> 0 <= rec.mType - rules.firstMonster < |rules.info|
  }

  predicate AllIndexed(records: seq<Record>, rules: Rules)
  {
    forall i :: 0 <= i < |records| ==> InfoIndexed(records[i], rules)
  }

  function InfoOf(rec: Record, rules: Rules): MonsterInfo
    requires Spawns(rec, rules) && InfoIndexed(rec, rules)
  {
    rules.info[rec.mType - rules.firstMonster]
  }

  /** The monster a spawning record creates. */
  function NewMonster(rec: Record, info: MonsterInfo): (m: Monster)
    ensures m.tgFi == m.fi && 0 <= m.fi <= 896 && m.fi % 128 == 0
    ensures m.target == -1 && m.phase == 2 && m.lifeMeter == info.life
    ensures m.mx == rec.mx && m.my == rec.my && 0 <= m.mType < 256 && (m.mType - rec.mType) % 256 == 0
    ensures m.fi == MonsterAngle(rec.fi)
    ensures m.damageMode == 0 && m.mMode == 0 && m.mFlags == 0 && m.walkCount == 0
    ensures m.fTime == 0 && m.eVs == 0 && m.evFi == 0
  {
    var fi := MonsterAngle(rec.fi);
    Monster(rec.mx, rec.my, rec.mType % 256, fi, fi, 0, -1, 2, 0, 0, info.life, 0, 0, 0, 0)
  }

  /** One pass of the loop body. */
  function Place(w: World, rec: Record, rules: Rules): (r: Result<World>)
    requires WellFormed(w) && InfoIndexed(rec, rules)
    requires Spawns(rec, rules) ==> w.mCount < MonsterSlots
    ensures r.Halted? <==> BadStart(rec)
    ensures r.Halted? ==> r.halt == WrongMonsterMode(rec.mode)
    ensures r.Ok? ==> WellFormed(r.value)
    ensures r.Ok? ==> r.value.mCount == w.mCount + (if Spawns(rec, rules) then 1 else 0)
    ensures r.Ok? ==> forall k :: 0 <= k < MonsterSlots && k != w.mCount ==> r.value.monsters[k] == w.monsters[k]
    ensures r.Ok? && Spawns(rec, rules) ==> r.value.monsters[w.mCount] == NewMonster(rec, InfoOf(rec, rules))
    ensures r.Ok? && !Spawns(rec, rules) ==> r.value.monsters == w.monsters
    ensures r.Ok? && IsPlayerStart(rec) && rec.mode == 0 ==>
      && r.value.player == w.player.(hx := rec.mx, hy := rec.my, pFlags := 0, invTime := 0, refTime := 0, godTime := 0)
      && r.value.hfi == PlayerFacing(rec.fi) * PlayerAngleUnit
    ensures r.Ok? && IsPlayerStart(rec) && rec.mode == 0 ==> 0 <= r.value.hfi <= 7 * PlayerAngleUnit < 0x1_0000
    ensures r.Ok? && !(IsPlayerStart(rec) && rec.mode == 0) ==>
      r.value.player == w.player && r.value.hfi == w.hfi
    ensures r.Ok? ==> forall k :: 0 <= k < NetSlots ==>
      r.value.netPlaces[k] ==
        if IsPlayerStart(rec) && rec.mode == k
        then NetPlace(rec.my, w.netPlaces[k].ply, PlayerFacing(rec.fi) * PlayerAngleUnit)
        else w.netPlaces[k]
  {
    if rec.mType == PlayerStart then
      var facing := PlayerFacing(rec.fi);
      if rec.mode < 0 || rec.mode > MaxMode then
        Halted(WrongMonsterMode(rec.mode))
      else
        var w' :=
          if rec.mode == 0 then
            w.(player := w.player.(hx := rec.mx, hy := rec.my, pFlags := 0, invTime := 0, refTime := 0, godTime := 0),
               hfi := facing * PlayerAngleUnit)
          else w;
        // plx is written twice, with mx and then my; ply is never written
        var first := w'.netPlaces[rec.mode].(plx := rec.mx);
        var second := first.(plx := rec.my);
        var place := second.(pfi := facing * PlayerAngleUnit);
        Ok(w'.(netPlaces := w'.netPlaces[rec.mode := place]))
    else if BitSet(rec.mode, rules.skill) then
      var monster := NewMonster(rec, rules.info[rec.mType - rules.firstMonster]);
      Ok(w.(monsters := w.monsters[w.mCount := monster], mCount := w.mCount + 1))
    else
      Ok(w)
  }

  /** Reference count: how many records spawn a monster. */
  function SpawnCount(records: seq<Record>, rules: Rules): (n: nat)
    ensures n <= |records|
  {
    if |records| == 0 then 0
    else (if Spawns(records[0], rules) then 1 else 0) + SpawnCount(records[1..], rules)
  }

  /** The loop over all records. */
  function PlaceAll(w: World, records: seq<Record>, rules: Rules): (r: Result<World>)
    requires WellFormed(w) && w.mCount + |records| <= MonsterSlots
    requires AllIndexed(records, rules)
    ensures r.Halted? <==> exists i :: 0 <= i < |records| && BadStart(records[i])
    ensures r.Ok? ==> WellFormed(r.value)
    ensures r.Ok? ==> r.value.mCount == w.mCount + SpawnCount(records, rules)
    ensures r.Ok? ==> forall k :: 0 <= k < NetSlots ==> r.value.netPlaces[k].ply == w.netPlaces[k].ply
    ensures r.Ok? ==> forall k :: 0 <= k < w.mCount ==> r.value.monsters[k] == w.monsters[k]
    ensures r.Ok? ==> forall k :: r.value.mCount <= k < MonsterSlots ==> r.value.monsters[k] == w.monsters[k]
    decreases |records|
  {
    if |records| == 0 then Ok(w)
    else
      match Place(w, records[0], rules)
      case Halted(h) => Halted(h)
      case Ok(w') =>
        assert forall i :: 1 <= i < |records| ==> records[1..][i - 1] == records[i];
        PlaceAll(w', records[1..], rules)
  }

  /** The i-th record, when it spawns, fills the slot numbered by the spawns
      before it. */
  lemma {:induction false} SpawnedMonster(w: World, records: seq<Record>, rules: Rules, i: nat)
    requires WellFormed(w) && w.mCount + |records| <= MonsterSlots
    requires AllIndexed(records, rules)
    requires forall j :: 0 <= j < |records| ==> !BadStart(records[j])
    requires i < |records| && Spawns(records[i], rules)
    ensures w.mCount + SpawnCount(records[..i], rules) < MonsterSlots
    ensures PlaceAll(w, records, rules).value.monsters[w.mCount + SpawnCount(records[..i], rules)] ==
      NewMonster(records[i], InfoOf(records[i], rules))
    decreases |records|
  {
    var w' := Place(w, records[0], rules).value;
    var rest := records[1..];
    assert AllIndexed(rest, rules) by {
      assert forall j :: 1 <= j < |records| ==> rest[j - 1] == records[j];
    }
    if i == 0 {
      assert SpawnCount(records[..0], rules) == 0;
    } else {
      assert records[..i][1..] == rest[..i - 1];
      assert records[..i][0] == records[0];
      SpawnedMonster(w', rest, rules, i - 1);
    }
  }

  /** The last player start with the given Mode, if any. */
  function LastStart(records: seq<Record>, mode: int): (r: Option<Record>)
    ensures r.Some? ==> IsPlayerStart(r.value) && r.value.mode == mode
  {
    if |records| == 0 then None
    else
      match LastStart(records[1..], mode)
      case Some(rec) => Some(rec)
      case None => if IsPlayerStart(records[0]) && records[0].mode == mode then Some(records[0]) else None
  }

  /** Players[0] and HFi come from the last player start with Mode 0. */
  lemma {:induction false} PlayerFromLastStart(w: World, records: seq<Record>, rules: Rules)
    requires WellFormed(w) && w.mCount + |records| <= MonsterSlots
    requires AllIndexed(records, rules)
    requires PlaceAll(w, records, rules).Ok?
    ensures var r := PlaceAll(w, records, rules).value;
      match LastStart(records, 0)
      case None => r.player == w.player && r.hfi == w.hfi
      case Some(rec) =>
        && r.player == w.player.(hx := rec.mx, hy := rec.my, pFlags := 0, invTime := 0, refTime := 0, godTime := 0)
        && r.hfi == PlayerFacing(rec.fi) * PlayerAngleUnit
    decreases |records|
  {
    if |records| > 0 {
      var w' := Place(w, records[0], rules).value;
      var rest := records[1..];
      assert AllIndexed(rest, rules) by {
        assert forall j :: 1 <= j < |records| ==> rest[j - 1] == records[j];
      }
      PlayerFromLastStart(w', rest, rules);
    }
  }

  /** NetPlace[k] comes from the last player start with Mode k: plx holds that
      record's my, pfi its converted facing, and ply keeps its old value. */
  lemma {:induction false} NetPlaceFromLastStart(w: World, records: seq<Record>, rules: Rules, k: nat)
    requires WellFormed(w) && w.mCount + |records| <= MonsterSlots
    requires AllIndexed(records, rules)
    requires PlaceAll(w, records, rules).Ok?
    requires k < NetSlots
    ensures var r := PlaceAll(w, records, rules).value;
      match LastStart(records, k)
      case None => r.netPlaces[k] == w.netPlaces[k]
      case Some(rec) =>
        r.netPlaces[k] == NetPlace(rec.my, w.netPlaces[k].ply, PlayerFacing(rec.fi) * PlayerAngleUnit)
    decreases |records|
  {
    if |records| > 0 {
      var w' := Place(w, records[0], rules).value;
      var rest := records[1..];
      assert AllIndexed(rest, rules) by {
        assert forall j :: 1 <= j < |records| ==> rest[j - 1] == records[j];
      }
      NetPlaceFromLastStart(w', rest, rules, k);
    }
  }

  /** The placement part of LoadLevel: MCount starts at 0, every NetPlace starts
      as blank, the records are placed in order, and with monsters switched off
      MCount is reset to 0 afterwards. */
  function LoadObjects(player: Player, hfi: int, blank: NetPlace, monsters: seq<Monster>,
                       records: seq<Record>, rules: Rules, monstersOn: bool): (r: Result<World>)
    requires |monsters| == MonsterSlots && |records| <= MaxRecords
    requires AllIndexed(records, rules)
    ensures r.Halted? <==> exists i :: 0 <= i < |records| && BadStart(records[i])
    ensures r.Ok? ==> WellFormed(r.value)
    ensures r.Ok? && !monstersOn ==> r.value.mCount == 0
    ensures r.Ok? && monstersOn ==> r.value.mCount == SpawnCount(records, rules)
    ensures r.Ok? ==> forall k :: 0 <= k < NetSlots ==> r.value.netPlaces[k].ply == blank.ply
    ensures r.Ok? ==>
      match LastStart(records, 0)
      case None => r.value.player == player && r.value.hfi == hfi
      case Some(rec) =>
        && r.value.player == player.(hx := rec.mx, hy := rec.my, pFlags := 0, invTime := 0, refTime := 0, godTime := 0)
        && r.value.hfi == PlayerFacing(rec.fi) * PlayerAngleUnit
    ensures r.Ok? ==> forall k :: 0 <= k < NetSlots ==>
      r.value.netPlaces[k] ==
        match LastStart(records, k)
        case None => blank
        case Some(rec) => NetPlace(rec.my, blank.ply, PlayerFacing(rec.fi) * PlayerAngleUnit)
    ensures r.Ok? ==> forall i :: 0 <= i < |records| && Spawns(records[i], rules) ==>
      && SpawnCount(records[..i], rules) < MonsterSlots
      && r.value.monsters[SpawnCount(records[..i], rules)] == NewMonster(records[i], InfoOf(records[i], rules))
  {
    var w := World(player, hfi, seq(NetSlots, _ => blank), monsters, 0);
    var placed :- PlaceAll(w, records, rules);
    PlayerFromLastStart(w, records, rules);
    assert forall k :: 0 <= k < NetSlots ==>
      placed.netPlaces[k] ==
        match LastStart(records, k)
        case None => blank
        case Some(rec) => NetPlace(rec.my, blank.ply, PlayerFacing(rec.fi) * PlayerAngleUnit)
    by {
      forall k | 0 <= k < NetSlots {
        NetPlaceFromLastStart(w, records, rules, k);
      }
    }
    assert forall i :: 0 <= i < |records| && Spawns(records[i], rules) ==>
      && SpawnCount(records[..i], rules) < MonsterSlots
      && placed.monsters[SpawnCount(records[..i], rules)] == NewMonster(records[i], InfoOf(records[i], rules))
    by {
      forall i | 0 <= i < |records| && Spawns(records[i], rules) {
        SpawnedMonster(w, records, rules, i);
      }
    }
    Ok(if monstersOn then placed else placed.(mCount := 0))
  }
}

=== FILE: text.dfy ===
/** Text helpers of src/chasm/cspbio.cpp: the pixel width of a string
    (CalcStringLen), the short level name built by ScanLevels, and the console
    line rotation of PutConsMessage. */
module Text {
  import opened Fatal
  import opened FileSystem

  /** The width a space advances, whatever the font says. */
  const SpaceWidth: nat := 4
  /** Widths above which a level name is shortened, and to which it is cut. */
  const MaxShortWidth: nat := 132
  const CutShortWidth: nat := 122
  const Ellipsis: string := "..."
  const NamePrefix: string := "#name="
  /** ConsoleComm holds this many lines. */
  const ConsoleLines: nat := 7

  /** CharSize: one Uint16 advance per character code. */
  predicate ValidFont(charSize: seq<nat>)
  {
    |charSize| == 256 && forall i :: 0 <= i < 256 ==> charSize[i] < 0x1_0000
  }

  /** Every character indexes CharSize. */
  predicate Renderable(s: string)
  {
    forall i :: 0 <= i < |s| ==> (s[i] as int) < 256
  }

  function Advance(c: char, charSize: seq<nat>): nat
    requires |charSize| == 256 && (c as int) < 256
  {
    if c == ' ' then SpaceWidth else charSize[c as int]
  }

  /** Reference definition: the exact sum of the advances, without wrap-around. */
  function TotalWidth(s: string, charSize: seq<nat>): nat
    requires |charSize| == 256 && Renderable(s)
  {
    if |s| == 0 then 0
    else TotalWidth(s[..|s| - 1], charSize) + Advance(s[|s| - 1], charSize)
  }

  /** CalcStringLen's value: the sum kept in a Uint16, so it wraps at 65536. */
  function Width(s: string, charSize: seq<nat>): nat
    requires |charSize| == 256 && Renderable(s)
  {
    TotalWidth(s, charSize) % 0x1_0000
  }

  /** CalcStringLen: add the advance of each character into a Uint16. */
  method CalcStringLen(s: string, charSize: seq<nat>) returns (w: nat)
    requires ValidFont(charSize) && Renderable(s)
    ensures w < 0x1_0000
    ensures w == TotalWidth(s, charSize) % 0x1_0000
  {
    w := 0;
    var i := 0;
    while i < |s|
      invariant 0 <= i <= |s|
      invariant w == TotalWidth(s[..i], charSize) % 0x1_0000
    {
      assert s[..i + 1][..i] == s[..i];
      w := (w + Advance(s[i], charSize)) % 0x1_0000;
      i := i + 1;
    }
    assert s[..i] == s;
  }

  /** The widths of two strings add up. */
  lemma {:induction false} TotalWidthAppend(a: string, b: string, charSize: seq<nat>)
    requires |charSize| == 256 && Renderable(a) && Renderable(b)
    ensures Renderable(a + b)
    ensures TotalWidth(a + b, charSize) == TotalWidth(a, charSize) + TotalWidth(b, charSize)
  {
    if |b| > 0 {
      var b' := b[..|b| - 1];
      assert (a + b)[..|a + b| - 1] == a + b';
      TotalWidthAppend(a, b', charSize);
    } else {
      assert a + b == a;
    }
  }

  /** A string of n spaces is 4n pixels wide, whatever the font. */
  lemma {:induction false} SpacesWidth(n: nat, charSize: seq<nat>)
    requires |charSize| == 256
    ensures Renderable(seq(n, _ => ' '))
    ensures TotalWidth(seq(n, _ => ' '), charSize) == SpaceWidth * n
  {
    if n > 0 {
      var s: string := seq(n, _ => ' ');
      assert s[..n - 1] == seq(n - 1, _ => ' ');
      SpacesWidth(n - 1, charSize);
    }
  }

  /** short is the short name ScanLevels gives name: name itself when at most
      132 wide, otherwise the longest proper prefix of width at most 122
      followed by "...". */
  predicate IsShortName(name: string, short: string, charSize: seq<nat>)
    requires |charSize| == 256 && Renderable(name)
  {
    && (Width(name, charSize) <= MaxShortWidth ==> short == name)
    && (Width(name, charSize) > MaxShortWidth ==>
          exists k :: && 0 <= k < |name|
                      && short == name[..k] + Ellipsis
                      && Width(name[..k], charSize) <= CutShortWidth
                      && forall j :: k < j < |name| ==> Width(name[..j], charSize) > CutShortWidth)
  }

  /** The part of ScanLevels that cuts a long level name: a name wider than 132
      loses characters from its end until it is at most 122 wide, then gets "...". */
  method ShortenName(name: string, charSize: seq<nat>) returns (short: string)
    requires ValidFont(charSize) && Renderable(name)
    ensures IsShortName(name, short, charSize)
  {
    short := name;
    if Width(short, charSize) > MaxShortWidth {
      var k := |name| - 1;
      short := name[..k];
      while Width(short, charSize) > CutShortWidth
        invariant 0 <= k < |name|
        invariant short == name[..k]
        invariant forall j :: k < j < |name| ==> Width(name[..j], charSize) > CutShortWidth
        decreases k
      {
        k := k - 1;
        short := name[..k];
      }
      short := short + Ellipsis;
    }
  }

  predicate IsSpace(c: char)
  {
    c == ' ' || c == '\t' || c == '\n' || c == '\r' || c == '\U{000B}' || c == '\U{000C}'
  }

  predicate Trimmed(s: string)
  {
    |s| == 0 || (!IsSpace(s[0]) && !IsSpace(s[|s| - 1]))
  }

  predicate AllSpace(s: string)
  {
    forall i :: 0 <= i < |s| ==> IsSpace(s[i])
  }

  /** The number of white-space characters at the front of s. */
  function LeadingSpaces(s: string): (k: nat)
    ensures k <= |s| && AllSpace(s[..k])
    ensures k < |s| ==> !IsSpace(s[k])
  {
    if |s| > 0 && IsSpace(s[0]) then
      var k := 1 + LeadingSpaces(s[1..]);
      assert forall i :: 1 <= i < k ==> s[..k][i] == s[1..][..k - 1][i - 1];
      k
    else 0
  }

  /** The number of white-space characters at the end of s. */
  function TrailingSpaces(s: string): (k: nat)
    ensures k <= |s| && AllSpace(s[|s| - k..])
    ensures k < |s| ==> !IsSpace(s[|s| - k - 1])
  {
    if |s| > 0 && IsSpace(s[|s| - 1]) then
      var s' := s[..|s| - 1];
      var k := 1 + TrailingSpaces(s');
      assert s[|s| - k..] == s'[|s'| - (k - 1)..] + [s[|s| - 1]];
      k
    else 0
  }

  /** t is s with white space cut off both ends. */
  ghost predicate IsTrimOf(t: string, s: string)
  {
    exists a, b :: 0 <= a <= b <= |s| && AllSpace(s[..a]) && AllSpace(s[b..]) && t == s[a..b]
  }

  /** boost::algorithm::trim: drop leading and trailing white space. The result
      has none at either end and is s with white space cut off both ends. */
  function Trim(s: string): (t: string)
    ensures Trimmed(t)
    ensures IsTrimOf(t, s)
  {
    var a := LeadingSpaces(s);
    var rest := s[a..];
    var k := TrailingSpaces(rest);
    var b := a + |rest| - k;
    assert rest[..|rest| - k] == s[a..b];
    assert s[b..] == rest[|rest| - k..];
    assert |rest| - k > 0 ==> rest[0] == s[a];
    s[a..b]
  }

  /** The "#name=" check of ScanLevels on a trimmed line: the title after the
      prefix, trimmed again, or None when the line does not start with it. */
  function LevelTitle(line: string): (r: Option<string>)
    ensures r.Some? <==> |line| >= |NamePrefix| && line[..|NamePrefix|] == NamePrefix
    ensures r.Some? ==> Trimmed(r.value)
    ensures r.Some? ==> IsTrimOf(r.value, line[|NamePrefix|..])
  {
    if |line| >= |NamePrefix| && line[..|NamePrefix|] == NamePrefix then
      Some(Trim(line[|NamePrefix|..]))
    else
      None
  }

  /** Writing a trimmed title after the prefix gives the title back. */
  lemma LevelTitleRoundTrip(title: string)
    requires Trimmed(title)
    ensures LevelTitle(NamePrefix + title) == Some(title)
  {
    assert LeadingSpaces(title) == 0;
    assert TrailingSpaces(title) == 0;
    assert Trim(title) == title;
    var line := NamePrefix + title;
    assert line[..|NamePrefix|] == NamePrefix;
    assert line[|NamePrefix|..] == title;
  }

  /** LevelNames[i] and ShortNames[i] after ScanLevels handled level i;
      short is None when ShortNames[i] is left as it was. */
  datatype LevelLabel = LevelLabel(long: string, short: Option<string>)

  /** The first line whose image under f is non-empty, mapped through f; None
      when every line maps to "". */
  function FirstNonEmptyBy(lines: seq<string>, f: string -> string): (r: Option<string>)
    ensures r.Some? ==> |r.value| > 0
    ensures r.None? ==> forall i :: 0 <= i < |lines| ==> f(lines[i]) == ""
    ensures r.Some? ==> (exists i :: 0 <= i < |lines| && r.value == f(lines[i]) &&
                                     (forall j :: 0 <= j < i ==> f(lines[j]) == ""))
  {
    if |lines| == 0 then None
    else if f(lines[0]) != "" then Some(f(lines[0]))
    else
      var r := FirstNonEmptyBy(lines[1..], f);
      assert forall i :: 1 <= i < |lines| ==> lines[1..][i - 1] == lines[i];
      assert r.Some? ==> exists i :: 1 <= i < |lines| && r.value == f(lines[i]) &&
                                     (forall j :: 1 <= j < i ==> f(lines[j]) == "");
      r
  }

  /** The first line that is not blank after trimming, trimmed; None when the
      file ends first. Every line before the one kept is blank. */
  function FirstNonBlank(lines: seq<string>): (r: Option<string>)
    ensures r.Some? ==> |r.value| > 0 && Trimmed(r.value)
    ensures r.None? ==> forall i :: 0 <= i < |lines| ==> Trim(lines[i]) == ""
    ensures r.Some? ==> (exists i :: 0 <= i < |lines| && r.value == Trim(lines[i]) &&
                                     (forall j :: 0 <= j < i ==> Trim(lines[j]) == ""))
  {
    FirstNonEmptyBy(lines, Trim)
  }

  /** The labels ScanLevels gives a level from its first non-blank line: a line
      without the "#name=" prefix becomes the long name and leaves the short name
      untouched; a title becomes the long name and, shortened, the short name. */
  method LabelFromLine(line: string, charSize: seq<nat>) returns (names: LevelLabel)
    requires ValidFont(charSize) && Renderable(line)
    ensures LevelTitle(line).None? ==> names == LevelLabel(line, None)
    ensures LevelTitle(line).Some? ==>
      names.long == LevelTitle(line).value && names.short.Some?
    ensures names.short.Some? ==>
      Renderable(names.long) && IsShortName(names.long, names.short.value, charSize)
  {
    var title := LevelTitle(line);
    if title.None? {
      return LevelLabel(line, None);
    }
    TitleIsRenderable(line);
    var short := ShortenName(title.value, charSize);
    names := LevelLabel(title.value, Some(short));
  }

  /** One iteration of ScanLevels. A missing level file leaves the name "." and
      the short name untouched; the lines are read until a non-blank one, and
      running out of lines is a read error; the first non-blank line gives the
      labels as LabelFromLine does. */
  method ScanLevel(file: Option<seq<string>>, path: Path, charSize: seq<nat>) returns (r: Result<LevelLabel>)
    requires ValidFont(charSize)
    requires file.Some? ==> forall i :: 0 <= i < |file.value| ==> Renderable(file.value[i])
    ensures file.None? ==> r == Ok(LevelLabel(".", None))
    ensures file.Some? && FirstNonBlank(file.value).None? ==> r == Halted(ReadError(path))
    ensures file.Some? && FirstNonBlank(file.value).Some? ==>
      var line := FirstNonBlank(file.value).value;
      LevelTitle(line).None? ==> r == Ok(LevelLabel(line, None))
    ensures file.Some? && FirstNonBlank(file.value).Some? ==>
      var title := LevelTitle(FirstNonBlank(file.value).value);
      title.Some? ==> r.Ok? && r.value.long == title.value && r.value.short.Some?
    ensures r.Ok? && r.value.short.Some? ==>
      Renderable(r.value.long) && IsShortName(r.value.long, r.value.short.value, charSize)
  {
    if file.None? {
      return Ok(LevelLabel(".", None));
    }
    var line := FirstNonBlank(file.value);
    if line.None? {
      return Halted(ReadError(path));
    }
    RenderableFirstNonBlank(file.value);
    var names := LabelFromLine(line.value, charSize);
    r := Ok(names);
  }

  lemma TitleIsRenderable(line: string)
    requires Renderable(line)
    ensures LevelTitle(line).Some? ==> Renderable(LevelTitle(line).value)
  {
    if LevelTitle(line).Some? {
      TrimIsRenderable(line[|NamePrefix|..]);
    }
  }

  lemma TrimIsRenderable(s: string)
    requires Renderable(s)
    ensures Renderable(Trim(s))
  {
  }

  lemma RenderableFirstNonBlank(lines: seq<string>)
    requires forall i :: 0 <= i < |lines| ==> Renderable(lines[i])
    ensures FirstNonBlank(lines).Some? ==> Renderable(FirstNonBlank(lines).value)
  {
    if FirstNonBlank(lines).Some? {
      var i :| 0 <= i < |lines| && FirstNonBlank(lines).value == Trim(lines[i]);
      TrimIsRenderable(lines[i]);
    }
  }

  /** PutConsMessage: the oldest line drops out, the message goes just above the
      last line, and the last line stays last. */
  function PutConsMessage(console: seq<string>, message: string): (c: seq<string>)
    requires |console| >= 2
    ensures |c| == |console|
    ensures c[|c| - 1] == console[|console| - 1]
    ensures c[|c| - 2] == message
    ensures forall i :: 0 <= i < |c| - 2 ==> c[i] == console[i + 1]
  {
    console[1..|console| - 1] + [message, console[|console| - 1]]
  }

  /** Several messages put one after the other. */
  function PutAll(console: seq<string>, messages: seq<string>): (c: seq<string>)
    requires |console| >= 2
    ensures |c| == |console|
    decreases |messages|
  {
    if |messages| == 0 then console
    else PutAll(PutConsMessage(console, messages[0]), messages[1..])
  }

  /** After at most |console| - 1 messages, they sit in order right above the
      unchanged last line. */
  lemma {:induction false} PutAllKeepsRecent(console: seq<string>, messages: seq<string>)
    requires |console| >= 2 && |messages| <= |console| - 1
    ensures var c := PutAll(console, messages);
      && c[|c| - 1] == console[|console| - 1]
      && c[|c| - 1 - |messages| .. |c| - 1] == messages
    decreases |messages|
  {
    if |messages| > 0 {
      var next := PutConsMessage(console, messages[0]);
      PutAllKeepsRecent(next, messages[1..]);
      var c := PutAll(console, messages);
      var n := |console|;
      var m := |messages|;
      forall i | 0 <= i < m
        ensures c[n - 1 - m + i] == messages[i]
      {
        if i > 0 {
          assert c[n - 1 - (m - 1) + (i - 1)] == messages[1..][i - 1];
        } else if m > 1 {
          assert c[n - 1 - m] == c[n - 1 - (m - 1) - 1];
          PutAllShifts(next, messages[1..], n - 2);
        }
      }
    }
  }

  /** The in-game console of ConsoleLines lines: after up to six messages the
      newest sit, oldest first, directly above the unchanged bottom line. */
  lemma ConsoleShowsRecent(console: seq<string>, messages: seq<string>)
    requires |console| == ConsoleLines && |messages| < ConsoleLines
    ensures var c := PutAll(console, messages);
      && |c| == ConsoleLines
      && c[ConsoleLines - 1] == console[ConsoleLines - 1]
      && c[ConsoleLines - 1 - |messages| .. ConsoleLines - 1] == messages
  {
    PutAllKeepsRecent(console, messages);
  }

  /** Lines above the last move up by one for each message. */
  lemma {:induction false} PutAllShifts(console: seq<string>, messages: seq<string>, i: nat)
    requires |console| >= 2 && |messages| <= i < |console| - 1
    ensures PutAll(console, messages)[i - |messages|] == console[i]
    decreases |messages|
  {
    if |messages| > 0 {
      var next := PutConsMessage(console, messages[0]);
      if i - 1 < |console| - 2 {
        assert next[i - 1] == console[i];
      }
      PutAllShifts(next, messages[1..], i - 1);
    }
  }
}
